=== FILE: README.md ===
# mutt-ldap: a Dafny model of the address query core

`mutt-ldap.py` answers Mutt's `query_command`: it joins its arguments into a
query, searches an LDAP directory for entries whose configured fields contain
the query, and prints a count line followed by one `address<TAB>name[<TAB>extra]`
row per mail address. With caching enabled, a `CachedLDAPConnection` keeps every
completed search in a pickled map keyed by (configuration digest, query) and
replays it on the next run.

This project models that core in Dafny 4.11 as pure functions over immutable
datatypes:

| file | module | models |
|---|---|---|
| `results.dfy` | `Results` | `Option` and `Outcome` (pass, or an exception) |
| `text.dfy` | `Text` | `sep.join`, `s.split(sep)` and the argument-less `s.split()` |
| `directory.dfy` | `Directory` | entries (DN plus multi-valued attributes), the settings the core reads, the exceptions |
| `filter.dfy` | `SearchFilter` | the filter string of `LDAPConnection.search`, and a reader that recovers the field list from it |
| `streams.dfy` | `Streams` | generators as entry sequences with an ending, and consumers that pull a prefix |
| `polling.dfy` | `ResultPolling` | the zero-timeout result loop, as a function of the poll outcomes and as the loop itself |
| `connection.dfy` | `Connection` | the connected / not-connected session and the guards of `connect`, `unbind`, `search` |
| `cache.dfy` | `ResultCache` | `_cache_key`, `_cache_lookup`, `_cache_store`, `_load_cache` |
| `cached.dfy` | `CachedConnection` | `CachedLDAPConnection`: load-then-connect, unbind-then-save, hit replay and miss-forward-and-buffer |
| `format.dfy` | `Format` | `format_columns`, `format_entry` and the collection of all rows |
| `commandline.dfy` | `CommandLine` | the `__main__` block: query joining, the consuming loop, the output |

Python generators run their body only when the consumer asks for the next item.
The model writes a generator as the entries it would yield plus how it ends
(`Completed`, `Failed`, or `Stalled` when it would poll forever) and a consumer
as a `Demand`: drain everything, or stop after `k` entries. Consequences the
model keeps: with no pull at all neither the connection guard nor the cache
lookup runs; the store on line 174 runs only when the consumer asks for one
entry beyond the last one and the live search returned normally.

Things the code does that a reader might not expect, all kept in the model:

- The filter's clauses are joined with a single space,
  `(|(cn=*ann*) (mail=*ann*))`, where the grammar of RFC 4515 (section 3)
  writes a filter list without separators.
- The query goes into the filter verbatim; the value escaping of section 3 of
  RFC 4515 is not applied.
- The static filter is wrapped in its own parentheses, `(&(S)(|…))`, so it is
  meant to be written without outer parentheses; `(objectClass=person)` would
  give `(&((objectClass=person))…)`.
- `data.get('displayName', data['cn'])` evaluates `data['cn']` first, so an
  entry with a mail address but no `cn` cannot be formatted even when it has a
  `displayName`.
- Printing zero rows still prints an empty line after the count line.
- A cache hit is replayed without the connection guard; a cached connect
  reloads the cache from disk even when it then refuses to connect twice.
- Only the administrative limit (LDAP result code 11) ends a search quietly
  with the entries received so far. A size limit (code 4) or a time limit
  (code 3) set by the server raises out of the search generator, so the run
  ends with an error, and with caching nothing is stored for the query.
- When StartTLS or the bind fails, the session object has already been stored,
  so the connection counts as open although `connect` raised.
- The simple bind is sent with the asynchronous `bind`, so `connect` raises
  only when the request cannot be sent; a rejected password does not make it
  raise, and the refusal reaches the program, if at all, as an error result
  of the search (a `ServerFailure` poll outcome in the model).

## Model

| member | source | states |
|---|---|---|
| `Text.Fields` | mutt-ldap.py:129 | `split()` gives non-empty, whitespace-free words whose characters all come from the setting |
| `Text.FieldsJoin` | mutt-ldap.py:129 | splitting words joined by single spaces gives back exactly those words, in order |
| `Text.FieldsSkipSpace` | mutt-ldap.py:129 | a whitespace character in front of the setting adds no field |
| `Text.FieldsWord` | mutt-ldap.py:129 | a single word with no whitespace is the one field |
| `Text.FieldsWordThenSpace` | mutt-ldap.py:129 | a word followed by any whitespace character is the first field, and the rest of the setting gives the remaining fields |
| `Text.FieldsExample` | mutt-ldap.py:129 | two words with a leading blank, two tabs between and a trailing blank give exactly those two fields |
| `SearchFilter.OrFilter` | mutt-ldap.py:130-132 | the OR filter opens with a parenthesis and the OR operator and closes with a parenthesis; with no fields it is the empty OR, which matches nothing |
| `SearchFilter.BuildFilter` | mutt-ldap.py:126-135 | without a static filter the filter opens as the OR filter does; with static filter S it opens with the AND operator, S in its own parentheses, and the OR filter; it closes with a parenthesis, and a blank field list without static filter gives the empty OR |
| `SearchFilter.Clause` | mutt-ldap.py:126-131 | a field's clause is `(f=*q*)` for a non-empty query and `(f=*)` for the empty query |
| `SearchFilter.OrFilterRoundTrip` | mutt-ldap.py:130-132 | the OR filter lists exactly the given fields, in order, one clause each, separated by single spaces inside the OR operator's parentheses |
| `SearchFilter.FilterRoundTrip` | mutt-ldap.py:126-135 | the filter sent is the OR filter over exactly the configured search fields, wrapped as `(&(S)…)` only when a static filter S is set |
| `SearchFilter.AnnExample` | mutt-ldap.py:126-132 | fields `cn mail` and query `ann` give the OR of `(cn=*ann*)` and `(mail=*ann*)`, separated by one space |
| `SearchFilter.AnnStaticExample` | mutt-ldap.py:133-135 | with static filter `objectClass=person` the same OR filter follows `(&(objectClass=person)` and is closed by one more parenthesis |
| `SearchFilter.EmptyQueryExample` | mutt-ldap.py:126-128 | the empty query gives presence clauses `(cn=*)` and `(mail=*)` |
| `Streams.Consume` | mutt-ldap.py:148-151 | a consumer receives a prefix of the yielded entries; the generator finishes only when the consumer pulls past the last entry and the stream completed; errors surface only then |
| `ResultPolling.Collect` | mutt-ldap.py:140-151 | the loop ends without a result exactly when no outcome ends it (no final result, limit or error) |
| `ResultPolling.CollectUpToFirstEnd` | mutt-ldap.py:140-151 | the yielded entries are all entries of the outcomes up to and including the first one that ends the loop, and the ending is that outcome's |
| `ResultPolling.AdminLimitKeepsEarlier` | mutt-ldap.py:142-147 | an administrative-limit outcome ends the search without an error and keeps every entry received before it; later outcomes are ignored |
| `ResultPolling.FinalResultEnds` | mutt-ldap.py:141-151 | the final search result's own entries are yielded last and nothing after it is read |
| `ResultPolling.PollLoop` | mutt-ldap.py:140-151 | the while loop as written yields exactly the entries and ending of the recursive description |
| `Connection.Connect` | mutt-ldap.py:94-115 | connecting while connected is an error that changes nothing; success needs a fresh session and a successful handshake; a failed initialisation stores nothing, while a failed StartTLS or bind request leaves the session stored; both raise the server's error |
| `Connection.Unbind` | mutt-ldap.py:117-121 | unbinding succeeds exactly when connected, is an error otherwise, and always leaves the session not connected |
| `Connection.LiveSearch` | mutt-ldap.py:123-139 | the first pull without a connection raises; with one, the request carries the base DN and the built filter and the consumer sees the poll loop's stream |
| `Connection.ConnectTwice` | mutt-ldap.py:94-96 | after a connect that stored the session, a second connect is refused and leaves the session as it was |
| `ResultCache.CacheKeySeparates` | mutt-ldap.py:198-199 | two cache keys are equal exactly when both the configuration digest and the query are equal |
| `ResultCache.LookupIn` | mutt-ldap.py:192-199 | a lookup hits exactly when the (digest, query) key is stored, and then returns the stored list |
| `ResultCache.StoreIn` | mutt-ldap.py:189-190 | storing adds the current key with the given list and keeps every other key's list |
| `ResultCache.LookupAfterStore` | mutt-ldap.py:189-199 | after a store, the same digest and query hit with what was stored, an empty list included; any other digest or query looks up as before |
| `ResultCache.StoreHitUnchanged` | mutt-ldap.py:189-196 | storing again the list a lookup hit returned leaves the cache unchanged |
| `ResultCache.LoadAsWritten` | mutt-ldap.py:176-183 | a readable file gives its map; a missing file, a ValueError and a KeyError give the empty cache; every other decoding error escapes |
| `ResultCache.Load` | mutt-ldap.py:176-183 | the intended loader: a readable file gives its map, anything else the empty cache |
| `ResultCache.LoadExtendsAsWritten` | mutt-ldap.py:176-183 | the intended loader agrees with the written one wherever that one succeeds |
| `CachedConnection.Connect` | mutt-ldap.py:155-157 | the cache is loaded first, also when the connect is then refused; a decoding error the loader does not catch fails the connect before connecting and leaves the session as it was; otherwise the connection part behaves as the plain connect |
| `CachedConnection.ConnectIntended` | mutt-ldap.py:155-157 | with the intended loader the connect always holds a loaded cache, the empty one for any unreadable file, and the connection part behaves as the plain connect |
| `CachedConnection.ConnectAgreesWithIntended` | mutt-ldap.py:155-157 | the written and the intended connect agree whenever the written loader succeeds; otherwise the written one fails with the decoding error and the intended one has an empty cache |
| `CachedConnection.EmptyCacheFileStopsConnect` | mutt-ldap.py:155-157 | an empty cache file makes the written connect fail with EOFError whatever the handshake, where the intended one connects with an empty cache |
| `CachedConnection.Unbind` | mutt-ldap.py:159-161 | the session is always left unconnected; the in-memory cache is saved exactly when the unbind succeeds and a cache was loaded; unbinding while not connected saves nothing |
| `CachedConnection.Search` | mutt-ldap.py:163-174 | the cache changes only on a miss whose live search the consumer drained to its normal end, and then only by storing what was yielded |
| `CachedConnection.HitReplays` | mutt-ldap.py:164-168 | on a hit the stored entries are replayed verbatim, no request is sent and the cache stays |
| `CachedConnection.MissForwards` | mutt-ldap.py:169-173 | on a miss the consumer sees exactly the live search |
| `CachedConnection.StoreOnlyWhenDrained` | mutt-ldap.py:169-174 | after a miss the cache gains the query iff the live search completed and the consumer pulled past its end, and then holds all its entries |
| `CachedConnection.SecondSearchReplays` | mutt-ldap.py:163-174 | a completed search is replayed by the next identical search whatever the server would answer |
| `CachedConnection.DrainedIsCached` | mutt-ldap.py:163-174 | after a drained search the cache holds exactly what the consumer saw |
| `CachedConnection.ValidPreserved` | mutt-ldap.py:155-161 | every operation keeps the invariant that a connected session has a loaded cache |
| `CachedConnection.ConnectedSearchHasCache` | mutt-ldap.py:163-164 | a connected session's search never meets the missing cache |
| `Format.Columns` | mutt-ldap.py:208-213 | the fields are the address, the last `displayName` value or else the last `cn` value, and a third, the optional attribute's last value, iff the entry has that attribute |
| `Format.FormatEntry` | mutt-ldap.py:215-221 | no rows without `mail`; otherwise one row per mail value, in order, each the tab-join of that value's columns |
| `Format.Row` | mutt-ldap.py:221 | a row starts with the address and a tab; without the optional attribute it is exactly the address, a tab and the name |
| `Format.AllRows` | mutt-ldap.py:242-246 | the number of collected rows is the total number of mail values of the entries |
| `Format.AllRowsOne` | mutt-ldap.py:246 | one entry contributes exactly its own `format_entry` rows |
| `Format.AllRowsAppend` | mutt-ldap.py:242-246 | the rows of two consecutive entry lists are the rows of the first followed by the rows of the second |
| `Format.AllRowsExtend` | mutt-ldap.py:245-246 | one more entry appends exactly its rows after those already collected |
| `Format.RowFields` | mutt-ldap.py:219-221 | splitting a row on tabs gives back its columns when no value contains a tab |
| `Format.EntryRowFields` | mutt-ldap.py:215-221 | the i-th row of an entry starts with its i-th mail value and has a third field iff the optional attribute is present |
| `Format.TwoAddressExample` | mutt-ldap.py:215-221 | two mail values and one display name give two rows with that name |
| `Format.LastCommonNameExample` | mutt-ldap.py:210 | without a display name the last `cn` value is the name |
| `Format.DisplayNameNeedsCommonName` | mutt-ldap.py:210 | an entry with a mail address but no `cn` cannot be formatted |
| `CommandLine.QueryOf` | mutt-ldap.py:235 | a single word is the query as given; with several, the query starts with the first word and one space |
| `CommandLine.QueryKeepsWords` | mutt-ldap.py:235 | the query is the words joined by single spaces; space-free words are recoverable from it |
| `CommandLine.HeaderCount` | mutt-ldap.py:247 | the number before the first space of the count line is the row count |
| `CommandLine.Header` | mutt-ldap.py:247 | the count line ends with ` addresses found:` and holds no newline |
| `CommandLine.Render` | mutt-ldap.py:247-248 | the output starts with the count line and a newline and ends with a newline; with no rows it is the count line and two newlines |
| `CommandLine.RenderLines` | mutt-ldap.py:247-248 | the output lines are the count line, the rows (an empty line when there are none), and nothing after the final newline |
| `CommandLine.Consumer` | mutt-ldap.py:245-246 | the loop pulls everything, or stops right after the first entry it cannot format |
| `CommandLine.Report` | mutt-ldap.py:243-248 | output is printed exactly when the search returned normally and every entry could be formatted, and it is the rendering of all rows |
| `CommandLine.RunPlain` | mutt-ldap.py:237-248 | without caching nothing is saved; a failed connect crashes with the server's error; output is printed exactly when the connect succeeded, the search returned normally and every entry formats, and it renders the rows of all entries |
| `CommandLine.RunCached` | mutt-ldap.py:155-174 | with caching, an uncaught decoding error or a failed connect crashes with nothing saved; a search that never ends saves nothing; on a miss the run ends as the plain run does; on a hit after a successful connect it prints exactly when every cached entry formats; any other run that neither prints nor hangs saves exactly the loaded cache; a printed run saves the loaded cache with only the query's key set, to entries whose rows are exactly the printed ones |
| `CommandLine.EmptyCacheFileCrashesRun` | mutt-ldap.py:155-157 | with caching on, an empty cache file ends every run with EOFError, printing and saving nothing |
| `CommandLine.Run` | mutt-ldap.py:231-240 | a usage message `<program>: no search string given` exactly when no query word is given; otherwise the query is the words joined by single spaces and the cached or plain run is chosen by the cache setting; without caching nothing is saved and output is printed exactly when the connect succeeded, the search completed and every entry formats; with caching printed output leaves the query in the saved cache |
| `CommandLine.RunTwiceSameOutput` | mutt-ldap.py:163-174 | with caching, a printed run is repeated byte for byte by the next run from the saved cache, whatever the server then answers |
| `CommandLine.AbortedRunStoresNothing` | mutt-ldap.py:242-246 | a run that misses the cache and stops at an unformattable entry still saves the cache, exactly as it was loaded |

## Findings

| source | as written | input that shows it | evidently intended | confidence | as-written member | corrected member |
|---|---|---|---|---|---|---|
| mutt-ldap.py:178-183 | `_load_cache` recovers from IOError, ValueError and KeyError only | an empty or cut-short cache file: `pickle.load` raises EOFError, which escapes `connect` on every run (`ResultCache.EmptyCacheFileFails`); `_save_cache` truncates the file before writing, so an interrupted save leaves such a file | any unreadable cache file is treated as an empty cache, as the comment "probably a corrupt cache file" says | medium; not executed | `ResultCache.LoadAsWritten` | `ResultCache.Load` |

`CachedConnection.Connect` and the whole-program `CommandLine.Run` follow the
code as written, so an empty cache file crashes every cached run
(`CommandLine.EmptyCacheFileCrashesRun`). `CachedConnection.ConnectIntended`
is the connect built on the corrected loader, and
`CachedConnection.ConnectAgreesWithIntended` proves that it differs from the
written one only on the files the written loader cannot read.

## Left out

- Opening the LDAP session, ldaps, StartTLS, simple and GSSAPI/SASL binds (lines 97-115): foreign network calls, abstracted as the `Handshake` parameter and the list of poll outcomes.
- Pickle serialisation and file I/O (lines 176-187): loading is the `LoadOutcome` parameter, saving is the `saved` field of a reply; a failing save is not modelled.
- The configuration digest (lines 201-205): SHA-1 of the pickled configuration is an opaque `Digest` parameter; that different configurations get different digests cannot be proved of SHA-1 and is not claimed.
- ConfigParser defaults and reading the rc file (lines 49-73): configuration I/O; the settings the core reads are the `Settings` record.
- argv decoding, UTF-8 `encode`/`unicode()` conversions and their decode errors (lines 139, 209-213, 227-229): strings are already-decoded character sequences.
- Standard output, standard error and exit codes (lines 231-233, 247-248): the `Exit` datatype says which stream gets which text.
- Search references (`RES_SEARCH_REFERENCE`) are treated like entries, as the loop yields them unchanged.
- An error raised by the network unbind call itself (line 120) is not modelled.
- Generator finalisation: a suspended generator is never resumed; its closing at garbage collection runs none of the code after its `yield`.
- Timing of the zero-timeout polls: a poll that finds nothing is a `NothingYet` batch; a finite list that never ends the search stands for a loop that polls forever.
- `format_columns` reads the optional column from the global configuration; the model takes it from the same `Settings` as the search.
- `Format.FormatEntry`: an entry that would raise KeyError or IndexError is excluded by the `Formattable` precondition; the whole-program model turns the first such entry into `Unformattable`.

=== FILE: cache.dfy ===
/**
 * The result cache of `CachedLDAPConnection`: a map from the pair
 * (configuration digest, query) to the entries a completed search produced.
 * The digest is the SHA-1 of the pickled configuration; it is an opaque
 * string here.
 */
module ResultCache {
  import opened Results
  import opened Directory

  type Digest = string

  datatype Key = Key(configId: Digest, query: string)

  type Store = map<Key, seq<Entry>>

  datatype Lookup = Miss | Hit(entries: seq<Entry>)

  /** `_cache_key`: the current configuration's digest paired with the query. */
  function CacheKey(configId: Digest, query: string): Key {
    Key(configId, query)
  }

  /** Two keys are equal only for the same configuration digest and the same query. */
  lemma CacheKeySeparates(configId: Digest, query: string, configId': Digest, query': string)
    ensures CacheKey(configId, query) == CacheKey(configId', query') <==> configId == configId' && query == query'
  {
  }

  /** `_cache_lookup`: `(False, None)` is `Miss`, `(True, entries)` is `Hit(entries)`. */
  function LookupIn(c: Store, configId: Digest, query: string): (r: Lookup)
    ensures r.Hit? <==> Key(configId, query) in c
    ensures r.Hit? ==> r.entries == c[Key(configId, query)]
  {
    var k := CacheKey(configId, query);
    if k in c then Hit(c[k]) else Miss
  }

  /** `_cache_store`: records the entries under the current key, replacing any earlier ones. */
  function StoreIn(c: Store, configId: Digest, query: string, entries: seq<Entry>): (c': Store)
    ensures c'.Keys == c.Keys + {Key(configId, query)}
    ensures c'[Key(configId, query)] == entries
    ensures forall k :: k in c && k != Key(configId, query) ==> c'[k] == c[k]
  {
    c[CacheKey(configId, query) := entries]
  }

  /** A query never stored misses, whatever the configuration. */
  lemma EmptyMisses(configId: Digest, query: string)
    ensures LookupIn(map[], configId, query) == Miss
  {
  }

  /**
   * A stored query hits with exactly what was stored, an empty list included;
   * every other key, in particular the same query under another configuration
   * digest, looks up as before.
   */
  lemma LookupAfterStore(c: Store, configId: Digest, query: string, entries: seq<Entry>,
                         configId': Digest, query': string)
    ensures LookupIn(StoreIn(c, configId, query, entries), configId', query')
            == if configId' == configId && query' == query then Hit(entries)
               else LookupIn(c, configId', query')
  {
  }

  /** Storing again what a lookup hit returns leaves the cache as it was. */
  lemma StoreHitUnchanged(c: Store, configId: Digest, query: string)
    ensures LookupIn(c, configId, query).Hit? ==>
              StoreIn(c, configId, query, LookupIn(c, configId, query).entries) == c
  {
    if LookupIn(c, configId, query).Hit? {
      var c' := StoreIn(c, configId, query, LookupIn(c, configId, query).entries);
      assert c'.Keys == c.Keys;
      assert forall k :: k in c ==> c'[k] == c[k];
    }
  }

  // Loading the pickled cache file.

  /** The exceptions `pickle.load` can raise on a damaged file. */
  datatype DecodeError =
      /** ValueError */
    | BadValue
      /** KeyError: an unknown opcode */
    | BadKey
      /** EOFError: the file is empty or cut short */
    | Truncated
      /** any other exception, such as an UnpicklingError or an IndexError */
    | OtherDecodeError(name: string)

  /** What reading the cache file gave. */
  datatype LoadOutcome =
    | Unpickled(store: Store)
      /** IOError: probably no such file */
    | OpenFailed
    | DecodeFailed(error: DecodeError)

  datatype Loaded = Loaded(store: Store) | LoadError(error: Error)

  /**
   * `_load_cache` as written: only IOError, ValueError and KeyError are turned
   * into an empty cache; every other decoding error escapes from `connect`.
   */
  function LoadAsWritten(o: LoadOutcome): (r: Loaded)
    ensures o.Unpickled? ==> r == Loaded(o.store)
    ensures r.LoadError? <==> o.DecodeFailed? && o.error != BadValue && o.error != BadKey
    ensures r.Loaded? && !o.Unpickled? ==> r.store == map[]
  {
    match o
    case Unpickled(store) => Loaded(store)
    case OpenFailed => Loaded(map[])
    case DecodeFailed(BadValue) => Loaded(map[])
    case DecodeFailed(BadKey) => Loaded(map[])
    case DecodeFailed(e) => LoadError(CacheUnreadable(DecodeErrorName(e)))
  }

  function DecodeErrorName(e: DecodeError): string {
    match e
    case BadValue => "ValueError"
    case BadKey => "KeyError"
    case Truncated => "EOFError"
    case OtherDecodeError(name) => name
  }

  /**
   * An empty cache file, as left by a run that stopped after opening the file
   * for writing and before the pickle was written, makes every later connect fail.
   */
  lemma EmptyCacheFileFails()
    ensures LoadAsWritten(DecodeFailed(Truncated)) == LoadError(CacheUnreadable("EOFError"))
  {
  }

  /** The loader with the intended recovery: a missing or unreadable file is an empty cache. */
  function Load(o: LoadOutcome): (c: Store)
    ensures o.Unpickled? ==> c == o.store
    ensures !o.Unpickled? ==> c == map[]
  {
    if o.Unpickled? then o.store else map[]
  }

  /** The intended loader agrees with the written one wherever the written one succeeds. */
  lemma LoadExtendsAsWritten(o: LoadOutcome)
    ensures LoadAsWritten(o).Loaded? ==> LoadAsWritten(o).store == Load(o)
    ensures LoadAsWritten(o).LoadError? ==> Load(o) == map[]
  {
  }
}

=== FILE: cached.dfy ===
/**
 * `CachedLDAPConnection`: the connection with the result cache. `connect`
 * loads the cache before connecting, `unbind` saves it after unbinding, and
 * `search` replays a cached result or forwards the live search while
 * buffering it, storing the buffer only once the live search has run to its end.
 */
module CachedConnection {
  import opened Results
  import opened Directory
  import opened Streams
  import opened ResultCache
  import Connection
  import ResultPolling

  /** The connection state and the in-memory cache; `None` until the first `connect`. */
  datatype Session = Session(base: Connection.Session, cache: Option<Store>)

  /** A reply, with the cache written to disk by this call, if any. */
  datatype Reply = Reply(session: Session, outcome: Outcome<Error>, saved: Option<Store>)

  /** A connected session always has a loaded cache. */
  predicate Valid(s: Session) {
    s.base.connected ==> s.cache.Some?
  }

  const Initial := Session(Connection.Session(false), None)

  /**
   * Loads the cache, then connects; the reload happens even when the connection
   * is refused. A decoding error the loader does not catch escapes before the
   * connection is attempted, and leaves the session, its old cache included, as it was.
   */
  function Connect(s: Session, loaded: LoadOutcome, h: Connection.Handshake): (r: Reply)
    ensures LoadAsWritten(loaded).LoadError? ==> r == Reply(s, Fail(LoadAsWritten(loaded).error), None)
    ensures LoadAsWritten(loaded).Loaded? ==>
              && r.session.cache == Some(LoadAsWritten(loaded).store)
              && r.session.base == Connection.Connect(s.base, h).session
              && r.outcome == Connection.Connect(s.base, h).outcome
    ensures r.saved == None
    ensures Valid(s) ==> Valid(r.session)
  {
    match LoadAsWritten(loaded)
    case LoadError(e) => Reply(s, Fail(e), None)
    case Loaded(store) =>
      var c := Connection.Connect(s.base, h);
      Reply(Session(c.session, Some(store)), c.outcome, None)
  }

  /** `connect` with the intended loader: every unreadable cache file counts as an empty cache. */
  function ConnectIntended(s: Session, loaded: LoadOutcome, h: Connection.Handshake): (r: Reply)
    ensures r.session.cache == Some(Load(loaded))
    ensures r.session.base == Connection.Connect(s.base, h).session
    ensures r.outcome == Connection.Connect(s.base, h).outcome
    ensures r.saved == None
    ensures Valid(r.session)
  {
    var c := Connection.Connect(s.base, h);
    Reply(Session(c.session, Some(Load(loaded))), c.outcome, None)
  }

  /**
   * The written `connect` and the intended one agree whenever the written
   * loader succeeds; otherwise the written one fails with the decoding error
   * before connecting, where the intended one connects with an empty cache.
   */
  lemma ConnectAgreesWithIntended(s: Session, loaded: LoadOutcome, h: Connection.Handshake)
    ensures LoadAsWritten(loaded).Loaded? ==> Connect(s, loaded, h) == ConnectIntended(s, loaded, h)
    ensures LoadAsWritten(loaded).LoadError? ==>
              && Connect(s, loaded, h).outcome.Fail?
              && Connect(s, loaded, h).outcome.error.CacheUnreadable?
              && Connect(s, loaded, h).session == s
              && ConnectIntended(s, loaded, h).session.cache == Some(map[])
  {
    LoadExtendsAsWritten(loaded);
  }

  /** An empty cache file stops the written `connect`, whatever the server would answer. */
  lemma EmptyCacheFileStopsConnect(h: Connection.Handshake)
    ensures Connect(Initial, DecodeFailed(Truncated), h) == Reply(Initial, Fail(CacheUnreadable("EOFError")), None)
    ensures ConnectIntended(Initial, DecodeFailed(Truncated), h).session.cache == Some(map[])
  {
    EmptyCacheFileFails();
  }

  /**
   * Unbinds, then saves the cache; a refused unbind saves nothing, and a
   * session that never loaded a cache fails to save after unbinding.
   */
  function Unbind(s: Session): (r: Reply)
    ensures !r.session.base.connected
    ensures r.session.cache == s.cache
    ensures r.outcome == Pass <==> s.base.connected && s.cache.Some?
    ensures !s.base.connected ==> r.outcome == Fail(NotConnected)
    ensures r.saved.Some? <==> r.outcome == Pass
    ensures r.saved.Some? ==> r.saved == s.cache
    ensures Valid(r.session)
  {
    var u := Connection.Unbind(s.base);
    if u.outcome.Fail? then Reply(s, u.outcome, None)
    else if s.cache.None? then Reply(Session(u.session, s.cache), Fail(NoCacheLoaded), None)
    else Reply(Session(u.session, s.cache), Pass, s.cache)
  }

  /** The outcome of a cached search: the new session and what the consumer saw. */
  datatype Searched = Searched(session: Session, search: Connection.Search)

  /**
   * The cached search generator. On a hit it replays the stored entries; on a
   * miss it forwards the live search and stores everything it forwarded, but
   * only when the consumer pulled past the last entry and the live search returned.
   */
  function Search(s: Session, configId: Digest, settings: Settings, query: string,
                  polls: seq<ResultPolling.Poll>, d: Demand): (r: Searched)
    ensures r.session.base == s.base
    ensures !Starts(d) ==> r == Searched(s, Connection.Search(None, Pull([], Suspended)))
    ensures Starts(d) && s.cache.None? ==> r == Searched(s, Connection.Search(None, Pull([], Raised(NoCacheLoaded))))
    ensures Valid(s) ==> Valid(r.session)
    ensures r.session.cache != s.cache ==>
              && Starts(d) && s.cache.Some? && LookupIn(s.cache.value, configId, query).Miss?
              && r.search.pull.stop == Finished
              && r.session.cache == Some(StoreIn(s.cache.value, configId, query, r.search.pull.got))
  {
    if !Starts(d) then Searched(s, Connection.Search(None, Pull([], Suspended)))
    else match s.cache
      case None => Searched(s, Connection.Search(None, Pull([], Raised(NoCacheLoaded))))
      case Some(c) =>
        match LookupIn(c, configId, query)
        case Hit(entries) =>
          Searched(s, Connection.Search(None, Consume(Stream(entries, Completed), d)))
        case Miss =>
          var live := Connection.LiveSearch(s.base, settings, query, polls, d);
          if live.pull.stop == Finished then
            Searched(Session(s.base, Some(StoreIn(c, configId, query, live.pull.got))), live)
          else Searched(s, live)
  }

  /** On a hit the stored entries are replayed verbatim, no request is sent, and the cache stays. */
  lemma HitReplays(s: Session, configId: Digest, settings: Settings, query: string,
                   polls: seq<ResultPolling.Poll>, d: Demand)
    requires Starts(d) && s.cache.Some?
    requires LookupIn(s.cache.value, configId, query).Hit?
    ensures var r := Search(s, configId, settings, query, polls, d);
      && r.session == s
      && r.search.request.None?
      && r.search.pull == Consume(Stream(s.cache.value[Key(configId, query)], Completed), d)
  {
  }

  /** On a miss the consumer sees exactly the live search. */
  lemma MissForwards(s: Session, configId: Digest, settings: Settings, query: string,
                     polls: seq<ResultPolling.Poll>, d: Demand)
    requires Starts(d) && s.cache.Some?
    requires LookupIn(s.cache.value, configId, query).Miss?
    ensures Search(s, configId, settings, query, polls, d).search
            == Connection.LiveSearch(s.base, settings, query, polls, d)
  {
  }

  /**
   * After a miss the cache gains the query exactly when the consumer drained the
   * live search to its normal end, and then holds every entry of that search;
   * a consumer that stops early, or a search that fails, leaves the cache as it was.
   */
  lemma StoreOnlyWhenDrained(s: Session, configId: Digest, settings: Settings, query: string,
                             polls: seq<ResultPolling.Poll>, d: Demand)
    requires s.base.connected && s.cache.Some?
    requires LookupIn(s.cache.value, configId, query).Miss?
    ensures var r := Search(s, configId, settings, query, polls, d);
      var all := ResultPolling.Collect(polls);
      && (r.session.cache != s.cache <==> all.ending == Completed && (d.Exhaust? || d.k > |all.entries|))
      && (r.session.cache != s.cache ==> r.session.cache == Some(StoreIn(s.cache.value, configId, query, all.entries)))
  {
    var r := Search(s, configId, settings, query, polls, d);
    var all := ResultPolling.Collect(polls);
    if all.ending == Completed && (d.Exhaust? || d.k > |all.entries|) {
      assert Key(configId, query) !in s.cache.value;
      assert Key(configId, query) in r.session.cache.value;
    }
  }

  /**
   * A search that ran to its end is replayed from the cache by the next search
   * for the same query under the same configuration, whatever the server would
   * now answer, and the consumer sees the same entries.
   */
  lemma SecondSearchReplays(s: Session, configId: Digest, settings: Settings, query: string,
                            polls: seq<ResultPolling.Poll>, polls': seq<ResultPolling.Poll>)
    requires s.cache.Some?
    requires Search(s, configId, settings, query, polls, Exhaust).search.pull.stop == Finished
    ensures var r := Search(s, configId, settings, query, polls, Exhaust);
      var r' := Search(r.session, configId, settings, query, polls', Exhaust);
      && r'.search.request.None?
      && r'.search.pull == r.search.pull
      && r'.session == r.session
  {
  }

  /** After a search the consumer drained to its end, the cache holds exactly what the consumer saw. */
  lemma DrainedIsCached(s: Session, configId: Digest, settings: Settings, query: string,
                        polls: seq<ResultPolling.Poll>, d: Demand)
    requires s.cache.Some?
    requires Search(s, configId, settings, query, polls, d).search.pull.stop == Finished
    ensures var r := Search(s, configId, settings, query, polls, d);
      && r.session.cache.Some?
      && LookupIn(r.session.cache.value, configId, query) == Hit(r.search.pull.got)
  {
  }

  /** Every operation keeps a connected session's cache loaded. */
  lemma ValidPreserved(s: Session, loaded: LoadOutcome, h: Connection.Handshake, configId: Digest,
                       settings: Settings, query: string, polls: seq<ResultPolling.Poll>, d: Demand)
    requires Valid(s)
    ensures Valid(Connect(s, loaded, h).session)
    ensures Valid(Unbind(s).session)
    ensures Valid(Search(s, configId, settings, query, polls, d).session)
  {
  }

  /** A connected session never meets the missing cache. */
  lemma ConnectedSearchHasCache(s: Session, configId: Digest, settings: Settings, query: string,
                                polls: seq<ResultPolling.Poll>, d: Demand)
    requires Valid(s) && s.base.connected
    ensures Search(s, configId, settings, query, polls, d).search.pull.stop != Raised(NoCacheLoaded)
  {
  }
}

=== FILE: commandline.dfy ===
/**
 * The main program: join the arguments into the query, search through the
 * cached or the plain connection inside `with`, format every entry as it
 * arrives, and print a count line followed by the rows.
 */
module CommandLine {
  import opened Results
  import opened Directory
  import opened Text
  import opened Streams
  import opened ResultCache
  import opened Format
  import Connection
  import CachedConnection
  import ResultPolling

  /** How a run of the program ends. */
  datatype Exit =
      /** exit status 0, with this text on standard output */
    | Printed(text: string)
      /** an exception ends the program */
    | Crashed(error: Error)
      /** exit status 1, with this message on standard error */
    | Usage(message: string)
      /** the search never ends */
    | Hangs

  /** The exit and the cache written to disk on the way out, if any. */
  datatype RunResult = RunResult(exit: Exit, saved: Option<Store>)

  /** The query: the command-line words joined by single spaces. */
  function QueryOf(words: seq<string>): (q: string)
    ensures |words| == 1 ==> q == words[0]
    ensures |words| >= 2 ==> words[0] + " " <= q
  {
    Join(' ', words)
  }

  /** Words without spaces can be read back from the query. */
  lemma QueryKeepsWords(words: seq<string>)
    requires |words| >= 1
    requires forall i :: 0 <= i < |words| ==> ' ' !in words[i]
    ensures SplitOn(' ', QueryOf(words)) == words
  {
    SplitOnJoin(' ', words);
  }

  // The count line.

  predicate IsDigit(c: char) {
    '0' <= c <= '9'
  }

  function DigitChar(d: nat): (c: char)
    requires d < 10
    ensures IsDigit(c)
  {
    ('0' as int + d) as char
  }

  /** The decimal notation of `n`, as `'{0}'.format(n)` writes it. */
  function Decimal(n: nat): (s: string)
    ensures |s| >= 1
    ensures forall i :: 0 <= i < |s| ==> IsDigit(s[i])
    decreases n
  {
    if n < 10 then [DigitChar(n)] else Decimal(n / 10) + [DigitChar(n % 10)]
  }

  /** The number a string of digits denotes. */
  function DecimalValue(s: string): nat
    requires forall i :: 0 <= i < |s| ==> IsDigit(s[i])
    decreases |s|
  {
    if |s| == 0 then 0
    else 10 * DecimalValue(s[..|s| - 1]) + DigitValue(s[|s| - 1])
  }

  function DigitValue(c: char): (d: nat)
    requires IsDigit(c)
    ensures d < 10
  {
    c as int - '0' as int
  }

  lemma {:induction false} DecimalRoundTrip(n: nat)
    ensures DecimalValue(Decimal(n)) == n
    decreases n
  {
    var s := Decimal(n);
    if n >= 10 {
      DecimalRoundTrip(n / 10);
      assert s[..|s| - 1] == Decimal(n / 10);
    }
  }

  /** The count line: the decimal count, then ` addresses found:`; it holds no newline. */
  function Header(n: nat): (line: string)
    ensures |line| > 17 && line[|line| - 17..] == " addresses found:"
    ensures '\n' !in line
  {
    var d := Decimal(n);
    assert forall i :: 0 <= i < |d| ==> d[i] != '\n';
    d + " addresses found:"
  }

  /** The number in front of the first space of the count line is the count. */
  lemma HeaderCount(n: nat)
    ensures var line := Header(n); var k := IndexOf(' ', line);
      && k == |Decimal(n)|
      && (forall i :: 0 <= i < k ==> IsDigit(line[i]))
      && DecimalValue(line[..k]) == n
  {
    var d := Decimal(n);
    var line := Header(n);
    assert line[|d|] == ' ';
    assert forall i :: 0 <= i < |d| ==> line[i] == d[i] && d[i] != ' ';
    assert line[..|d|] == d;
    DecimalRoundTrip(n);
  }

  /** The two `print` calls: the count line, then the rows joined by newlines. */
  function Render(rows: seq<string>): (out: string)
    ensures Header(|rows|) + "\n" <= out
    ensures |out| > 0 && out[|out| - 1] == '\n'
    ensures rows == [] ==> out == Header(0) + "\n\n"
  {
    Header(|rows|) + "\n" + Join('\n', rows) + "\n"
  }

  /** The output as one join: the count line, the rows (an empty line when none), and a final empty piece. */
  lemma RenderIsJoin(rows: seq<string>)
    ensures Render(rows) == Join('\n', [Header(|rows|)] + (if rows == [] then [""] else rows) + [""])
  {
    var h := Header(|rows|);
    var body := if rows == [] then [""] else rows;
    assert Join('\n', rows) == Join('\n', body);
    JoinAppend('\n', [h], body);
    JoinAppend('\n', [h] + body, [""]);
  }

  /**
   * The lines of the output are the count line, the rows, and the empty
   * remainder after the final newline; with no rows an empty line is printed.
   */
  lemma RenderLines(rows: seq<string>)
    requires forall i :: 0 <= i < |rows| ==> '\n' !in rows[i]
    ensures SplitOn('\n', Render(rows)) == [Header(|rows|)] + (if rows == [] then [""] else rows) + [""]
  {
    var h := Header(|rows|);
    var body := if rows == [] then [""] else rows;
    var all := [h] + body + [""];
    RenderIsJoin(rows);
    assert forall i :: 0 <= i < |body| ==> '\n' !in body[i];
    forall i | 0 <= i < |all|
      ensures '\n' !in all[i]
    {
      if i == 0 {
        assert all[i] == h;
      } else if i <= |body| {
        assert all[i] == body[i - 1];
      } else {
        assert all[i] == "";
      }
    }
    SplitOnJoin('\n', all);
  }

  // The consumer loop: `for entry in entries: addresses.extend(format_entry(entry))`.

  /** Index of the first entry `format_entry` raises on, or `|entries|`. */
  function FirstUnformattable(entries: seq<Entry>, optional: string): (j: nat)
    ensures j <= |entries|
    ensures forall i :: 0 <= i < j ==> Formattable(entries[i], optional)
    ensures j < |entries| ==> !Formattable(entries[j], optional)
  {
    if |entries| == 0 || !Formattable(entries[0], optional) then 0
    else 1 + FirstUnformattable(entries[1..], optional)
  }

  /** How far the loop pulls when the generator would yield `entries`: it stops at an entry it cannot format. */
  function Consumer(entries: seq<Entry>, optional: string): (d: Demand)
    ensures d.Prefix? <==> FirstUnformattable(entries, optional) < |entries|
    ensures d.Prefix? ==> d.k == FirstUnformattable(entries, optional) + 1
  {
    var j := FirstUnformattable(entries, optional);
    if j < |entries| then Prefix(j + 1) else Exhaust
  }

  lemma FirstUnformattableOfPrefix(entries: seq<Entry>, optional: string)
    requires FirstUnformattable(entries, optional) < |entries|
    ensures var j := FirstUnformattable(entries, optional);
      FirstUnformattable(entries[..j + 1], optional) == j
  {
    var j := FirstUnformattable(entries, optional);
    var got := entries[..j + 1];
    var j' := FirstUnformattable(got, optional);
    assert forall i :: 0 <= i <= j ==> got[i] == entries[i];
    assert !Formattable(got[j], optional);
    assert j' <= j;
    assert forall i :: 0 <= i < j ==> Formattable(got[i], optional);
  }

  /** How the program ends once the loop has stopped pulling. */
  function Report(got: seq<Entry>, stop: Stop, optional: string): (x: Exit)
    requires stop == Suspended ==> FirstUnformattable(got, optional) < |got|
    ensures x.Printed? <==> stop == Finished && FirstUnformattable(got, optional) == |got|
    ensures x.Printed? ==> x.text == Render(AllRows(got, optional))
    ensures x == Hangs <==> stop == Hung && FirstUnformattable(got, optional) == |got|
  {
    var j := FirstUnformattable(got, optional);
    if j < |got| then Crashed(Unformattable(got[j].dn))
    else match stop
      case Finished => Printed(Render(AllRows(got, optional)))
      case Raised(e) => Crashed(e)
      case Hung => Hangs
      case Suspended => assert false; Hangs
  }

  /** A run with caching disabled. */
  function RunPlain(settings: Settings, query: string, h: Connection.Handshake,
                    polls: seq<ResultPolling.Poll>): (r: RunResult)
    ensures r.saved == None
    ensures !h.Established? ==> r.exit == Crashed(ServerError(h.code))
    ensures var all := ResultPolling.Collect(polls);
      r.exit.Printed? <==>
        h.Established? && all.ending == Completed
        && FirstUnformattable(all.entries, settings.optionalColumn) == |all.entries|
    ensures r.exit.Printed? ==>
              r.exit.text == Render(AllRows(ResultPolling.Collect(polls).entries, settings.optionalColumn))
  {
    var c := Connection.Connect(Connection.Session(false), h);
    if c.outcome.Fail? then RunResult(Crashed(c.outcome.error), None)
    else
      var all := Connection.LiveSearch(c.session, settings, query, polls, Exhaust);
      var d := Consumer(all.pull.got, settings.optionalColumn);
      var live := Connection.LiveSearch(c.session, settings, query, polls, d);
      FirstUnformattableOfPrefixIfSuspended(all.pull.got, live.pull, d, settings.optionalColumn);
      RunResult(Report(live.pull.got, live.pull.stop, settings.optionalColumn), None)
  }

  /**
   * A run with caching enabled. The cache is saved by `unbind` when the
   * `with` block is left, normally or by an exception, but not when the
   * connection was never made or the search never ends. What is saved is the
   * loaded cache, with the query added only when its search was drained.
   */
  function RunCached(settings: Settings, configId: Digest, query: string, loaded: LoadOutcome,
                     h: Connection.Handshake, polls: seq<ResultPolling.Poll>): (r: RunResult)
    ensures LoadAsWritten(loaded).LoadError? ==> r == RunResult(Crashed(LoadAsWritten(loaded).error), None)
    ensures LoadAsWritten(loaded).Loaded? && !h.Established? ==> r == RunResult(Crashed(ServerError(h.code)), None)
    ensures r.exit == Hangs ==> r.saved == None
    ensures LoadAsWritten(loaded).Loaded? && LookupIn(LoadAsWritten(loaded).store, configId, query).Miss? ==>
              r.exit == RunPlain(settings, query, h, polls).exit
    ensures LoadAsWritten(loaded).Loaded? && h.Established? && LookupIn(LoadAsWritten(loaded).store, configId, query).Hit? ==>
              var got := LookupIn(LoadAsWritten(loaded).store, configId, query).entries;
              r.exit.Printed? <==> FirstUnformattable(got, settings.optionalColumn) == |got|
    ensures r.exit.Printed? ==>
              && r.saved.Some?
              && LookupIn(r.saved.value, configId, query).Hit?
              && var got := LookupIn(r.saved.value, configId, query).entries;
                 && FirstUnformattable(got, settings.optionalColumn) == |got|
                 && r.exit.text == Render(AllRows(got, settings.optionalColumn))
    ensures LoadAsWritten(loaded).Loaded? && h.Established? && r.exit != Hangs && !r.exit.Printed? ==>
              r.saved == Some(LoadAsWritten(loaded).store)
    ensures r.exit.Printed? ==>
              && LoadAsWritten(loaded).Loaded?
              && r.saved.Some?
              && r.saved == Some(StoreIn(LoadAsWritten(loaded).store, configId, query,
                                         LookupIn(r.saved.value, configId, query).entries))
  {
    var c := CachedConnection.Connect(CachedConnection.Initial, loaded, h);
    if c.outcome.Fail? then RunResult(Crashed(c.outcome.error), None)
    else
      StoreHitUnchanged(LoadAsWritten(loaded).store, configId, query);
      var all := CachedConnection.Search(c.session, configId, settings, query, polls, Exhaust);
      var d := Consumer(all.search.pull.got, settings.optionalColumn);
      var r := CachedConnection.Search(c.session, configId, settings, query, polls, d);
      FirstUnformattableOfPrefixIfSuspended(all.search.pull.got, r.search.pull, d, settings.optionalColumn);
      var exit := Report(r.search.pull.got, r.search.pull.stop, settings.optionalColumn);
      if exit == Hangs then RunResult(exit, None)
      else RunResult(exit, CachedConnection.Unbind(r.session).saved)
  }

  /** Pulling only up to the first unformattable entry ends with that entry. */
  lemma FirstUnformattableOfPrefixIfSuspended(all: seq<Entry>, p: Pull, d: Demand, optional: string)
    requires d == Consumer(all, optional)
    requires p.stop == Suspended ==> d.Prefix? && p.got == all[..d.k]
    ensures p.stop == Suspended ==> FirstUnformattable(p.got, optional) < |p.got|
  {
    if p.stop == Suspended {
      FirstUnformattableOfPrefix(all, optional);
    }
  }

  /** The whole program for the command-line words after the program name. */
  function Run(settings: Settings, configId: Digest, program: string, words: seq<string>,
               loaded: LoadOutcome, h: Connection.Handshake, polls: seq<ResultPolling.Poll>): (r: RunResult)
    ensures r.exit.Usage? <==> |words| == 0
    ensures r.exit.Usage? ==> r.exit.message == program + ": no search string given\n"
    ensures !settings.cacheEnabled ==> r.saved == None
    ensures |words| > 0 && !settings.cacheEnabled ==> r == RunPlain(settings, QueryOf(words), h, polls)
    ensures |words| > 0 && settings.cacheEnabled ==> r == RunCached(settings, configId, QueryOf(words), loaded, h, polls)
    ensures |words| > 0 && settings.cacheEnabled && r.exit.Printed? ==>
              r.saved.Some? && LookupIn(r.saved.value, configId, QueryOf(words)).Hit?
    ensures var all := ResultPolling.Collect(polls);
      |words| > 0 && !settings.cacheEnabled ==>
        (r.exit.Printed? <==>
           h.Established? && all.ending == Completed
           && FirstUnformattable(all.entries, settings.optionalColumn) == |all.entries|)
  {
    if |words| == 0 then RunResult(Usage(program + ": no search string given\n"), None)
    else
      var query := QueryOf(words);
      if settings.cacheEnabled then RunCached(settings, configId, query, loaded, h, polls)
      else RunPlain(settings, query, h, polls)
  }

  /**
   * With caching on, an empty cache file ends every run with the uncaught
   * EOFError before anything is searched, printed or saved.
   */
  lemma EmptyCacheFileCrashesRun(settings: Settings, configId: Digest, program: string, words: seq<string>,
                                 h: Connection.Handshake, polls: seq<ResultPolling.Poll>)
    requires settings.cacheEnabled && |words| > 0
    ensures Run(settings, configId, program, words, DecodeFailed(Truncated), h, polls)
            == RunResult(Crashed(CacheUnreadable("EOFError")), None)
  {
    EmptyCacheFileFails();
  }

  /**
   * With caching on, a run that printed its output and saved its cache is
   * repeated word for word by the next run with the same settings and the
   * same query, from the saved cache, whatever the server would answer then.
   */
  lemma RunTwiceSameOutput(settings: Settings, configId: Digest, program: string, words: seq<string>,
                           loaded: LoadOutcome, h: Connection.Handshake,
                           polls: seq<ResultPolling.Poll>, polls': seq<ResultPolling.Poll>)
    requires settings.cacheEnabled
    requires Run(settings, configId, program, words, loaded, h, polls).exit.Printed?
    ensures var first := Run(settings, configId, program, words, loaded, h, polls);
      && first.saved.Some?
      && Run(settings, configId, program, words, Unpickled(first.saved.value), Connection.Established, polls').exit
         == first.exit
  {
    var query := QueryOf(words);
    var opt := settings.optionalColumn;
    var c := CachedConnection.Connect(CachedConnection.Initial, loaded, h);
    var all := CachedConnection.Search(c.session, configId, settings, query, polls, Exhaust);
    var d := Consumer(all.search.pull.got, opt);
    var r := CachedConnection.Search(c.session, configId, settings, query, polls, d);
    assert d == Exhaust;
    assert r == all;
    CachedConnection.DrainedIsCached(c.session, configId, settings, query, polls, Exhaust);
    var saved := CachedConnection.Unbind(r.session).saved;
    assert saved == r.session.cache;

    var c' := CachedConnection.Connect(CachedConnection.Initial, Unpickled(saved.value), Connection.Established);
    assert c'.session.cache == saved;
    CachedConnection.HitReplays(c'.session, configId, settings, query, polls', Exhaust);
    var all' := CachedConnection.Search(c'.session, configId, settings, query, polls', Exhaust);
    assert all'.search.pull == r.search.pull;
  }

  /**
   * A run that stops at an entry it cannot format saves the cache on the way
   * out, but without the query: the aborted search was never stored.
   */
  lemma AbortedRunStoresNothing(settings: Settings, configId: Digest, program: string, words: seq<string>,
                                loaded: LoadOutcome, h: Connection.Handshake, polls: seq<ResultPolling.Poll>)
    requires settings.cacheEnabled && |words| > 0
    requires LoadAsWritten(loaded).Loaded?
    requires LookupIn(LoadAsWritten(loaded).store, configId, QueryOf(words)).Miss?
    requires Run(settings, configId, program, words, loaded, h, polls).exit.Crashed?
    requires Run(settings, configId, program, words, loaded, h, polls).exit.error.Unformattable?
    ensures var r := Run(settings, configId, program, words, loaded, h, polls);
      r.saved == Some(LoadAsWritten(loaded).store)
  {
    var query := QueryOf(words);
    var opt := settings.optionalColumn;
    var c := CachedConnection.Connect(CachedConnection.Initial, loaded, h);
    var all := CachedConnection.Search(c.session, configId, settings, query, polls, Exhaust);
    var d := Consumer(all.search.pull.got, opt);
    var r := CachedConnection.Search(c.session, configId, settings, query, polls, d);
    assert d.Prefix?;
    assert r.search.pull.stop == Suspended;
  }
}

=== FILE: connection.dfy ===
/**
 * `LDAPConnection`: a two-state session (connected or not) with the guards of
 * `connect`, `unbind` and `search`. Opening the network session, StartTLS and
 * binding are foreign calls; their result is the `Handshake` parameter, and the
 * server's answers to a search are the list of poll outcomes.
 */
module Connection {
  import opened Results
  import opened Directory
  import opened Streams
  import ResultPolling
  import SearchFilter

  datatype Session = Session(connected: bool)

  /** How the foreign part of `connect` went. */
  datatype Handshake =
    | Established
      /** the session object could not be created; nothing was stored */
    | InitFailed(code: string)
      /**
       * StartTLS or sending the bind failed after the session object was
       * stored. The simple bind is sent asynchronously, so a rejected password
       * does not raise here; only GSSAPI binds wait for the server's verdict.
       */
    | BindFailed(code: string)

  datatype Reply = Reply(session: Session, outcome: Outcome<Error>)

  /** The request the search sends: the base DN and the filter; the scope is always the whole subtree. */
  datatype Request = Request(baseDn: string, filter: string)

  /** A search as the consumer sees it: the request sent, if any, and what it pulled. */
  datatype Search = Search(request: Option<Request>, pull: Pull)

  function Connect(s: Session, h: Handshake): (r: Reply)
    ensures s.connected ==> r == Reply(s, Fail(AlreadyConnected))
    ensures r.outcome == Pass <==> !s.connected && h == Established
    ensures r.outcome == Pass ==> r.session.connected
    ensures !s.connected && h.InitFailed? ==> r == Reply(s, Fail(ServerError(h.code)))
    ensures !s.connected && h.BindFailed? ==> r == Reply(Session(true), Fail(ServerError(h.code)))
  {
    if s.connected then Reply(s, Fail(AlreadyConnected))
    else match h
      case Established => Reply(Session(true), Pass)
      case InitFailed(code) => Reply(s, Fail(ServerError(code)))
      case BindFailed(code) => Reply(Session(true), Fail(ServerError(code)))
  }

  function Unbind(s: Session): (r: Reply)
    ensures !r.session.connected
    ensures r.outcome == Pass <==> s.connected
    ensures !s.connected ==> r.outcome == Fail(NotConnected)
  {
    if !s.connected then Reply(s, Fail(NotConnected)) else Reply(Session(false), Pass)
  }

  /**
   * The search generator. Its body, including the connection guard and the
   * request, runs only once the consumer asks for a first entry.
   */
  function LiveSearch(s: Session, settings: Settings, query: string,
                      polls: seq<ResultPolling.Poll>, d: Demand): (r: Search)
    ensures !Starts(d) ==> r == Search(None, Pull([], Suspended))
    ensures Starts(d) && !s.connected ==> r == Search(None, Pull([], Raised(SearchBeforeConnect)))
    ensures r.request.Some? <==> Starts(d) && s.connected
    ensures r.request.Some? ==> r.request.value.baseDn == settings.baseDn
    ensures r.request.Some? ==>
              r.request.value.filter == SearchFilter.BuildFilter(settings.searchFields, settings.filter, query)
    ensures r.request.Some? ==> r.pull == Consume(ResultPolling.Collect(polls), d)
  {
    if !Starts(d) then Search(None, Pull([], Suspended))
    else if !s.connected then Search(None, Pull([], Raised(SearchBeforeConnect)))
    else
      var filter := SearchFilter.BuildFilter(settings.searchFields, settings.filter, query);
      Search(Some(Request(settings.baseDn, filter)), Consume(ResultPolling.Collect(polls), d))
  }

  /** Connecting, then unbinding, returns to the unconnected state without an error. */
  lemma ConnectThenUnbind(s: Session)
    requires !s.connected
    ensures Unbind(Connect(s, Established).session) == Reply(s, Pass)
  {
  }

  /** A second `connect` is refused and changes nothing. */
  lemma ConnectTwice(s: Session, h1: Handshake, h2: Handshake)
    requires Connect(s, h1).session.connected
    ensures var t := Connect(s, h1).session; Connect(t, h2) == Reply(t, Fail(AlreadyConnected))
  {
  }
}

=== FILE: directory.dfy ===
/**
 * The directory entries, settings and errors that the address search works with.
 */
module Directory {

  /** Attribute name to its ordered values; a directory attribute may be multi-valued. */
  type Attrs = map<string, seq<string>>

  /** One search result: the distinguished name and the attribute mapping. */
  datatype Entry = Entry(dn: string, attrs: Attrs)

  /**
   * The settings of the rc file that the core reads: the search base, the
   * whitespace-separated search fields, the static filter, the optional output
   * column and whether results are cached.
   */
  datatype Settings = Settings(
    baseDn: string,
    searchFields: string,
    filter: string,
    optionalColumn: string,
    cacheEnabled: bool)

  /** The exceptions that leave the core. */
  datatype Error =
      /** RuntimeError 'already connected to the LDAP server' */
    | AlreadyConnected
      /** RuntimeError 'not connected to an LDAP server' */
    | NotConnected
      /** RuntimeError 'connect to the LDAP server before searching' */
    | SearchBeforeConnect
      /** AttributeError: the cache was never loaded because connect never ran */
    | NoCacheLoaded
      /** any directory-protocol error other than the administrative limit */
    | ServerError(code: string)
      /** a decoding error of the cache file that the loader does not catch */
    | CacheUnreadable(reason: string)
      /** KeyError or IndexError while formatting the entry with this DN */
    | Unformattable(dn: string)
}

=== FILE: filter.dfy ===
/**
 * The LDAP search filter built by `LDAPConnection.search`: a substring OR
 * over the configured fields, optionally AND-ed with a static filter.
 * The query is inserted verbatim; nothing is escaped.
 */
module SearchFilter {
  import opened Results
  import opened Text

  /** The trailing wildcard, present only for a non-empty query. */
  function Suffix(query: string): string {
    if query == "" then "" else "*"
  }

  /** The clause for one field: a substring match, or a presence test for the empty query. */
  function Clause(field: string, query: string): (c: string)
    ensures query == "" ==> c == "(" + field + "=*)"
    ensures query != "" ==> c == "(" + field + "=*" + query + "*)"
  {
    "(" + field + "=*" + query + Suffix(query) + ")"
  }

  /** The clauses of the fields, in field-list order. */
  function Clauses(fields: seq<string>, query: string): (cs: seq<string>)
    ensures |cs| == |fields|
    ensures forall i :: 0 <= i < |fields| ==> cs[i] == Clause(fields[i], query)
  {
    seq(|fields|, i requires 0 <= i < |fields| => Clause(fields[i], query))
  }

  /** The OR filter: the clauses joined by single spaces inside `(|` and `)`. */
  function OrFilter(fields: seq<string>, query: string): (f: string)
    ensures "(|" <= f && |f| >= 3 && f[|f| - 1] == ')'
    ensures fields == [] ==> f == "(|)"
  {
    "(|" + Join(' ', Clauses(fields, query)) + ")"
  }

  /**
   * The filter string sent to the server for `query`. A blank field list gives
   * the empty OR `(|)`, which matches nothing.
   */
  function BuildFilter(searchFields: string, staticFilter: string, query: string): (f: string)
    ensures staticFilter == "" ==> "(|" <= f
    ensures staticFilter != "" ==> "(&(" + staticFilter + ")(|" <= f
    ensures |f| >= 3 && f[|f| - 1] == ')'
    ensures Fields(searchFields) == [] && staticFilter == "" ==> f == "(|)"
  {
    var inner := OrFilter(Fields(searchFields), query);
    if staticFilter == "" then inner else "(&(" + staticFilter + ")" + inner + ")"
  }

  // A reader of the filters above, given the query and the static filter they
  // were built from; it recovers the field list.

  /** Reads one clause at the head of `s`: the field name and what follows the clause. */
  function ParseClause(s: string, query: string): (r: Option<(string, string)>)
    ensures r.Some? ==> |r.value.1| < |s|
  {
    if |s| == 0 || s[0] != '(' then None
    else
      var n := IndexOf('=', s[1..]);
      var tail := s[1 + n..];
      var close := "=*" + query + Suffix(query) + ")";
      if close <= tail then Some((s[1..1 + n], tail[|close|..])) else None
  }

  /** Reads a non-empty list of clauses separated by single spaces. */
  function ParseClauses(s: string, query: string): Option<seq<string>>
    decreases |s|
  {
    match ParseClause(s, query)
    case None => None
    case Some((field, rest)) =>
      if rest == "" then Some([field])
      else if rest[0] != ' ' then None
      else
        match ParseClauses(rest[1..], query)
        case None => None
        case Some(more) => Some([field] + more)
  }

  /** Reads an OR filter `(|…)` and returns its fields. */
  function ParseOr(s: string, query: string): Option<seq<string>> {
    if |s| < 3 || s[..2] != "(|" || s[|s| - 1] != ')' then None
    else
      var body := s[2..|s| - 1];
      if body == "" then Some([]) else ParseClauses(body, query)
  }

  /** Reads a complete filter built with `staticFilter` and returns its fields. */
  function ParseFilter(s: string, staticFilter: string, query: string): Option<seq<string>> {
    if staticFilter == "" then ParseOr(s, query)
    else
      var open := "(&(" + staticFilter + ")";
      if |open| < |s| && open <= s && s[|s| - 1] == ')' then ParseOr(s[|open|..|s| - 1], query)
      else None
  }

  lemma ParseClauseOf(field: string, query: string, rest: string)
    requires '=' !in field
    ensures ParseClause(Clause(field, query) + rest, query) == Some((field, rest))
  {
    var close := "=*" + query + Suffix(query) + ")";
    var s := Clause(field, query) + rest;
    assert s == "(" + field + close + rest;
    var t := s[1..];
    assert t == field + close + rest;
    assert forall j :: 0 <= j < |field| ==> t[j] == field[j];
    assert t[|field|] == '=';
    assert IndexOf('=', t) == |field|;
    assert s[1 + |field|..] == close + rest;
    assert s[1..1 + |field|] == field;
  }

  lemma ParseClausesLast(field: string, query: string)
    requires '=' !in field
    ensures ParseClauses(Clause(field, query), query) == Some([field])
  {
    ParseClauseOf(field, query, "");
    assert Clause(field, query) + "" == Clause(field, query);
  }

  lemma ParseClausesCons(field: string, query: string, rest: string, more: seq<string>)
    requires '=' !in field
    requires ParseClauses(rest, query) == Some(more)
    ensures ParseClauses(Clause(field, query) + [' '] + rest, query) == Some([field] + more)
  {
    var tail := [' '] + rest;
    ParseClauseOf(field, query, tail);
    assert Clause(field, query) + [' '] + rest == Clause(field, query) + tail;
    assert tail[1..] == rest;
  }

  lemma {:induction false} ParseClausesJoin(fields: seq<string>, query: string)
    requires |fields| >= 1
    requires forall i :: 0 <= i < |fields| ==> '=' !in fields[i]
    ensures ParseClauses(Join(' ', Clauses(fields, query)), query) == Some(fields)
    decreases |fields|
  {
    var cs := Clauses(fields, query);
    if |fields| == 1 {
      ParseClausesLast(fields[0], query);
      assert Join(' ', cs) == Clause(fields[0], query);
      assert [fields[0]] == fields;
    } else {
      assert cs[1..] == Clauses(fields[1..], query);
      ParseClausesJoin(fields[1..], query);
      ParseClausesCons(fields[0], query, Join(' ', cs[1..]), fields[1..]);
      assert [fields[0]] + fields[1..] == fields;
    }
  }

  /** The OR filter lists exactly the given fields, in order. */
  lemma OrFilterRoundTrip(fields: seq<string>, query: string)
    requires forall i :: 0 <= i < |fields| ==> '=' !in fields[i]
    ensures ParseOr(OrFilter(fields, query), query) == Some(fields)
  {
    var body := Join(' ', Clauses(fields, query));
    var s := OrFilter(fields, query);
    assert s[..2] == "(|";
    assert s[2..|s| - 1] == body;
    if |fields| > 0 {
      ParseClausesJoin(fields, query);
      assert ParseClause("", query).None?;
    }
  }

  /**
   * The filter sent for `query` is the OR filter over exactly the configured
   * search fields, in order, wrapped in `(&(S)…)` when a static filter S is set.
   */
  lemma FilterRoundTrip(searchFields: string, staticFilter: string, query: string)
    requires '=' !in searchFields
    ensures ParseFilter(BuildFilter(searchFields, staticFilter, query), staticFilter, query)
            == Some(Fields(searchFields))
  {
    var fields := Fields(searchFields);
    assert forall i :: 0 <= i < |fields| ==> '=' !in fields[i];
    OrFilterRoundTrip(fields, query);
    var inner := OrFilter(fields, query);
    if staticFilter != "" {
      var open := "(&(" + staticFilter + ")";
      var s := open + inner + ")";
      StaticWraps(searchFields, staticFilter, query);
      assert BuildFilter(searchFields, staticFilter, query) == s;
      assert s[..|open|] == open;
      assert s[|s| - 1] == ')';
      assert s[|open|..|s| - 1] == inner;
      assert ParseFilter(s, staticFilter, query) == ParseOr(inner, query);
    }
  }

  lemma CnMailFields()
    ensures Fields("cn mail") == ["cn", "mail"]
  {
    assert "cn mail" == Join(' ', ["cn", "mail"]);
    FieldsJoin(["cn", "mail"]);
  }

  lemma CnMailOr(query: string)
    ensures OrFilter(["cn", "mail"], query) == "(|" + Clause("cn", query) + " " + Clause("mail", query) + ")"
  {
    var cs := Clauses(["cn", "mail"], query);
    assert cs == [Clause("cn", query), Clause("mail", query)];
    assert Join(' ', cs) == Clause("cn", query) + " " + Clause("mail", query);
  }

  lemma AnnOr()
    ensures OrFilter(["cn", "mail"], "ann") == "(|(cn=*ann*) (mail=*ann*))"
  {
    CnMailOr("ann");
    assert Suffix("ann") == "*";
    assert Clause("cn", "ann") == "(cn=*ann*)";
    assert Clause("mail", "ann") == "(mail=*ann*)";
  }

  /** Fields "cn mail", query "ann", no static filter: clauses joined by one space. */
  lemma AnnExample()
    ensures BuildFilter("cn mail", "", "ann") == "(|(cn=*ann*) (mail=*ann*))"
  {
    AnnOr();
    CnMailFields();
  }

  /** The same search with a static filter, which gets its own parentheses. */
  lemma AnnStaticExample()
    ensures BuildFilter("cn mail", "objectClass=person", "ann")
            == "(&(" + "objectClass=person" + ")" + "(|(cn=*ann*) (mail=*ann*))" + ")"
  {
    AnnExample();
    StaticWraps("cn mail", "objectClass=person", "ann");
  }

  /** A static filter wraps the unrestricted filter. */
  lemma StaticWraps(searchFields: string, staticFilter: string, query: string)
    requires staticFilter != ""
    ensures BuildFilter(searchFields, staticFilter, query)
            == "(&(" + staticFilter + ")" + BuildFilter(searchFields, "", query) + ")"
  {
  }

  /** The empty query turns every clause into a presence test. */
  lemma EmptyQueryExample()
    ensures BuildFilter("cn mail", "", "") == "(|(cn=*) (mail=*))"
  {
    CnMailFields();
    CnMailOr("");
    assert Clause("cn", "") == "(cn=*)";
    assert Clause("mail", "") == "(mail=*)";
  }
}

=== FILE: format.dfy ===
/**
 * `format_entry` and `format_columns`: every mail address of an entry becomes
 * one tab-separated row for the mail client: address, name, and the optional
 * column when the entry has that attribute.
 */
module Format {
  import opened Directory
  import opened Text

  const Mail := "mail"
  const DisplayName := "displayName"
  const CommonName := "cn"

  /** Python's `values[-1]`. */
  function Last(values: seq<string>): string
    requires |values| > 0
  {
    values[|values| - 1]
  }

  /**
   * The values the name column is taken from: `displayName` when present,
   * else `cn`. The source evaluates `data['cn']` as the default argument
   * before looking at `displayName`, so `cn` must exist in either case.
   */
  function NameValues(attrs: Attrs): seq<string>
    requires CommonName in attrs
  {
    if DisplayName in attrs then attrs[DisplayName] else attrs[CommonName]
  }

  /** What `format_columns` needs to not raise a KeyError or an IndexError. */
  predicate HasColumns(attrs: Attrs, optional: string) {
    && CommonName in attrs
    && |NameValues(attrs)| > 0
    && (optional in attrs ==> |attrs[optional]| > 0)
  }

  /** An entry `format_entry` turns into rows without raising: columns are needed only for some address. */
  predicate Formattable(e: Entry, optional: string) {
    Mail in e.attrs && |e.attrs[Mail]| > 0 ==> HasColumns(e.attrs, optional)
  }

  /** `format_columns`: the fields of the row for one address. */
  function Columns(address: string, attrs: Attrs, optional: string): (cols: seq<string>)
    requires HasColumns(attrs, optional)
    ensures 2 <= |cols| <= 3
    ensures cols[0] == address
    ensures DisplayName in attrs ==> cols[1] == Last(attrs[DisplayName])
    ensures DisplayName !in attrs ==> cols[1] == Last(attrs[CommonName])
    ensures |cols| == 3 <==> optional in attrs
    ensures |cols| == 3 ==> cols[2] == Last(attrs[optional])
  {
    [address, Last(NameValues(attrs))] + if optional in attrs then [Last(attrs[optional])] else []
  }

  /** One output row: the columns joined by tabs. */
  function Row(address: string, attrs: Attrs, optional: string): (row: string)
    requires HasColumns(attrs, optional)
    ensures address + "\t" <= row
    ensures optional !in attrs ==> row == address + "\t" + Last(NameValues(attrs))
  {
    var cols := Columns(address, attrs, optional);
    assert cols[1..][0] == cols[1];
    assert optional !in attrs ==> cols == [address, Last(NameValues(attrs))];
    JoinTwo('\t', address, Last(NameValues(attrs)));
    Join('\t', cols)
  }

  /** `format_entry`: one row per mail value, in order; none without a `mail` attribute. */
  function FormatEntry(e: Entry, optional: string): (rows: seq<string>)
    requires Formattable(e, optional)
    ensures Mail !in e.attrs ==> rows == []
    ensures Mail in e.attrs ==> |rows| == |e.attrs[Mail]|
    ensures Mail in e.attrs ==>
              forall i :: 0 <= i < |rows| ==> rows[i] == Row(e.attrs[Mail][i], e.attrs, optional)
  {
    if Mail !in e.attrs then []
    else
      var mails := e.attrs[Mail];
      seq(|mails|, i requires 0 <= i < |mails| => Row(mails[i], e.attrs, optional))
  }

  /** The number of rows an entry contributes. */
  function MailCount(e: Entry): nat {
    if Mail in e.attrs then |e.attrs[Mail]| else 0
  }

  function TotalMail(entries: seq<Entry>): nat {
    if |entries| == 0 then 0 else MailCount(entries[0]) + TotalMail(entries[1..])
  }

  /** The rows of all entries, in entry order, as the main program collects them. */
  function AllRows(entries: seq<Entry>, optional: string): (rows: seq<string>)
    requires forall i :: 0 <= i < |entries| ==> Formattable(entries[i], optional)
    ensures |rows| == TotalMail(entries)
  {
    if |entries| == 0 then []
    else FormatEntry(entries[0], optional) + AllRows(entries[1..], optional)
  }

  /** One entry contributes exactly its own rows. */
  lemma AllRowsOne(e: Entry, optional: string)
    requires Formattable(e, optional)
    ensures AllRows([e], optional) == FormatEntry(e, optional)
  {
    assert [e][1..] == [];
  }

  /**
   * The rows of consecutive entry lists are concatenated: the main loop's
   * `extend` appends each entry's rows after those of the entries before it.
   */
  lemma {:induction false} AllRowsAppend(a: seq<Entry>, b: seq<Entry>, optional: string)
    requires forall i :: 0 <= i < |a| ==> Formattable(a[i], optional)
    requires forall i :: 0 <= i < |b| ==> Formattable(b[i], optional)
    ensures forall i :: 0 <= i < |a + b| ==> Formattable((a + b)[i], optional)
    ensures AllRows(a + b, optional) == AllRows(a, optional) + AllRows(b, optional)
    decreases |a|
  {
    assert forall i :: 0 <= i < |a + b| ==> (a + b)[i] == if i < |a| then a[i] else b[i - |a|];
    if |a| == 0 {
      assert a + b == b;
    } else {
      assert (a + b)[0] == a[0];
      assert (a + b)[1..] == a[1..] + b;
      AllRowsAppend(a[1..], b, optional);
    }
  }

  /** Appending one more entry appends exactly that entry's rows. */
  lemma AllRowsExtend(entries: seq<Entry>, e: Entry, optional: string)
    requires forall i :: 0 <= i < |entries| ==> Formattable(entries[i], optional)
    requires Formattable(e, optional)
    ensures forall i :: 0 <= i < |entries + [e]| ==> Formattable((entries + [e])[i], optional)
    ensures AllRows(entries + [e], optional) == AllRows(entries, optional) + FormatEntry(e, optional)
  {
    AllRowsAppend(entries, [e], optional);
    AllRowsOne(e, optional);
  }

  /**
   * Splitting a row on tabs gives back its columns when no value contains a
   * tab: the mail client reads the address first, then the name, then the
   * optional column.
   */
  lemma RowFields(address: string, attrs: Attrs, optional: string)
    requires HasColumns(attrs, optional)
    requires forall j :: 0 <= j < |Columns(address, attrs, optional)| ==>
               '\t' !in Columns(address, attrs, optional)[j]
    ensures SplitOn('\t', Row(address, attrs, optional)) == Columns(address, attrs, optional)
  {
    SplitOnJoin('\t', Columns(address, attrs, optional));
  }

  /** The i-th row of an entry starts with its i-th mail value, and has two fields or three. */
  lemma EntryRowFields(e: Entry, optional: string, i: nat)
    requires Formattable(e, optional)
    requires Mail in e.attrs && i < |e.attrs[Mail]|
    requires '\t' !in e.attrs[Mail][i]
    requires forall j :: 0 <= j < |Columns(e.attrs[Mail][i], e.attrs, optional)| ==>
               '\t' !in Columns(e.attrs[Mail][i], e.attrs, optional)[j]
    ensures var fields := SplitOn('\t', FormatEntry(e, optional)[i]);
      && fields[0] == e.attrs[Mail][i]
      && (|fields| == 3 <==> optional in e.attrs)
      && |fields| >= 2
  {
    RowFields(e.attrs[Mail][i], e.attrs, optional);
  }

  /** The example entry: two addresses and a display name, no optional column. */
  lemma TwoAddressExample()
    ensures var e := Entry("uid=ann", map[Mail := ["a@x.com", "b@x.com"], DisplayName := ["Ann B"], CommonName := ["Ann"]]);
      FormatEntry(e, "") == ["a@x.com\tAnn B", "b@x.com\tAnn B"]
  {
    var e := Entry("uid=ann", map[Mail := ["a@x.com", "b@x.com"], DisplayName := ["Ann B"], CommonName := ["Ann"]]);
    assert Columns("a@x.com", e.attrs, "") == ["a@x.com", "Ann B"];
    assert Columns("b@x.com", e.attrs, "") == ["b@x.com", "Ann B"];
    JoinTwo('\t', "a@x.com", "Ann B");
    JoinTwo('\t', "b@x.com", "Ann B");
    var rows := FormatEntry(e, "");
    assert |rows| == 2 && rows[0] == "a@x.com\tAnn B" && rows[1] == "b@x.com\tAnn B";
  }

  /** Without a display name the last common name is used. */
  lemma LastCommonNameExample()
    ensures var e := Entry("uid=ann", map[Mail := ["a@x.com"], CommonName := ["Ann", "Annie"]]);
      FormatEntry(e, "") == ["a@x.com\tAnnie"]
  {
    var e := Entry("uid=ann", map[Mail := ["a@x.com"], CommonName := ["Ann", "Annie"]]);
    assert Columns("a@x.com", e.attrs, "") == ["a@x.com", "Annie"];
    JoinTwo('\t', "a@x.com", "Annie");
    var rows := FormatEntry(e, "");
    assert |rows| == 1 && rows[0] == "a@x.com\tAnnie";
  }

  /** A display name does not make up for a missing `cn`. */
  lemma DisplayNameNeedsCommonName(e: Entry, optional: string)
    requires Mail in e.attrs && |e.attrs[Mail]| > 0 && CommonName !in e.attrs
    ensures !Formattable(e, optional)
  {
  }
}

=== FILE: polling.dfy ===
/**
 * The result loop of `LDAPConnection.search`: after sending the request the
 * search polls the server with a zero timeout, yields every entry it gets, and
 * stops at the final search result or, silently, at the administrative limit.
 */
module ResultPolling {
  import opened Directory
  import opened Streams

  /** The message types the loop can receive; `NothingYet` is a zero-timeout poll that found nothing. */
  datatype ResultKind = NothingYet | SearchEntry | SearchReference | SearchResult

  /** One call of the server's `result` function. */
  datatype Poll =
      /** a message of some type with the entries it carries */
    | Batch(kind: ResultKind, entries: seq<Entry>)
      /** the server reported `adminLimitExceeded` (LDAP result code 11) */
    | AdminLimitExceeded
      /**
       * any other error result, including `sizeLimitExceeded` (code 4) and
       * `timeLimitExceeded` (code 3): the loop does not catch these
       */
    | ServerFailure(code: string)

  /** Whether the loop stops at this outcome. */
  predicate Ends(p: Poll) {
    !p.Batch? || p.kind == SearchResult
  }

  /** The entries a poll hands to the consumer. */
  function Yielded(p: Poll): seq<Entry> {
    if p.Batch? then p.entries else []
  }

  /** How the loop ends at an outcome that ends it. */
  function EndingOf(p: Poll): Ending {
    match p
    case ServerFailure(code) => Failed(code)
    case _ => Completed
  }

  /** All entries of the polls, in order. */
  function Flatten(polls: seq<Poll>): seq<Entry> {
    if |polls| == 0 then [] else Yielded(polls[0]) + Flatten(polls[1..])
  }

  /** Index of the first outcome that ends the loop, or `|polls|`. */
  function FirstEnd(polls: seq<Poll>): (i: nat)
    ensures i <= |polls|
    ensures forall j :: 0 <= j < i ==> !Ends(polls[j])
    ensures i < |polls| ==> Ends(polls[i])
  {
    if |polls| == 0 || Ends(polls[0]) then 0 else 1 + FirstEnd(polls[1..])
  }

  /** What the search generator yields, and how it ends, for this sequence of poll outcomes. */
  function Collect(polls: seq<Poll>): (s: Stream)
    ensures s.ending == Stalled <==> forall j :: 0 <= j < |polls| ==> !Ends(polls[j])
    ensures |s.entries| <= |Flatten(polls)|
  {
    if |polls| == 0 then Stream([], Stalled)
    else match polls[0]
      case AdminLimitExceeded => Stream([], Completed)
      case ServerFailure(code) => Stream([], Failed(code))
      case Batch(kind, es) =>
        if kind == SearchResult then Stream(es, Completed)
        else
          var rest := Collect(polls[1..]);
          Stream(es + rest.entries, rest.ending)
  }

  /**
   * The generator yields, in order, every entry up to and including the
   * outcome that ends the loop, and ends the way that outcome says.
   */
  lemma {:induction false} CollectUpToFirstEnd(polls: seq<Poll>)
    ensures var i := FirstEnd(polls);
      && Collect(polls).entries == Flatten(polls[..if i < |polls| then i + 1 else i])
      && Collect(polls).ending == if i < |polls| then EndingOf(polls[i]) else Stalled
  {
    if |polls| > 0 {
      var p := polls[0];
      if Ends(p) {
        assert FirstEnd(polls) == 0;
        assert polls[..1] == [p];
        assert [p][1..] == [];
        assert Flatten([p]) == Yielded(p);
      } else {
        var rest := polls[1..];
        CollectUpToFirstEnd(rest);
        var i := FirstEnd(rest);
        assert FirstEnd(polls) == i + 1;
        var n := if i < |rest| then i + 1 else i;
        var front := polls[..n + 1];
        assert front == [p] + rest[..n];
        assert front[0] == p && front[1..] == rest[..n];
        assert Flatten(front) == Yielded(p) + Flatten(rest[..n]);
        assert Collect(polls).entries == Yielded(p) + Collect(rest).entries;
      }
    }
  }

  /** Outcomes that do not end the loop contribute their entries and let the rest decide. */
  lemma {:induction false} CollectAfterOpen(before: seq<Poll>, after: seq<Poll>)
    requires forall j :: 0 <= j < |before| ==> !Ends(before[j])
    ensures Collect(before + after).entries == Flatten(before) + Collect(after).entries
    ensures Collect(before + after).ending == Collect(after).ending
    decreases |before|
  {
    if |before| == 0 {
      assert before + after == after;
    } else {
      assert (before + after)[0] == before[0];
      assert (before + after)[1..] == before[1..] + after;
      CollectAfterOpen(before[1..], after);
    }
  }

  /**
   * An administrative-limit outcome ends the search without an error and keeps
   * every entry received before it; later outcomes are never looked at.
   */
  lemma AdminLimitKeepsEarlier(before: seq<Poll>, after: seq<Poll>)
    requires forall j :: 0 <= j < |before| ==> !Ends(before[j])
    ensures Collect(before + [AdminLimitExceeded] + after) == Stream(Flatten(before), Completed)
  {
    assert before + [AdminLimitExceeded] + after == before + ([AdminLimitExceeded] + after);
    CollectAfterOpen(before, [AdminLimitExceeded] + after);
  }

  /** The final search result's own entries are yielded, and nothing after it. */
  lemma FinalResultEnds(before: seq<Poll>, es: seq<Entry>, after: seq<Poll>)
    requires forall j :: 0 <= j < |before| ==> !Ends(before[j])
    ensures Collect(before + [Batch(SearchResult, es)] + after) == Stream(Flatten(before) + es, Completed)
  {
    assert before + [Batch(SearchResult, es)] + after == before + ([Batch(SearchResult, es)] + after);
    CollectAfterOpen(before, [Batch(SearchResult, es)] + after);
  }

  /** One step of the recursive description, taken at position i. */
  lemma CollectAt(polls: seq<Poll>, i: nat)
    requires i < |polls|
    ensures Collect(polls[i..]) ==
      match polls[i]
      case AdminLimitExceeded => Stream([], Completed)
      case ServerFailure(code) => Stream([], Failed(code))
      case Batch(kind, es) =>
        if kind == SearchResult then Stream(es, Completed)
        else Stream(es + Collect(polls[i + 1..]).entries, Collect(polls[i + 1..]).ending)
  {
    assert polls[i..][0] == polls[i];
    assert polls[i..][1..] == polls[i + 1..];
  }

  /**
   * The loop as the source writes it: poll until the message type is the final
   * search result, passing on every entry, and leave silently at the limit.
   */
  method PollLoop(polls: seq<Poll>) returns (entries: seq<Entry>, ending: Ending)
    ensures Stream(entries, ending) == Collect(polls)
  {
    entries := [];
    ending := Stalled;
    var kind := NothingYet;
    var i := 0;
    assert polls[0..] == polls;
    while kind != SearchResult
      invariant 0 <= i <= |polls|
      invariant kind != SearchResult ==> entries + Collect(polls[i..]).entries == Collect(polls).entries
      invariant kind != SearchResult ==> Collect(polls[i..]).ending == Collect(polls).ending
      invariant kind == SearchResult ==> Stream(entries, ending) == Collect(polls)
      decreases |polls| - i, if kind == SearchResult then 0 else 1
    {
      if i == |polls| {
        assert Collect(polls[i..]) == Stream([], Stalled);
        ending := Stalled;
        return;
      }
      CollectAt(polls, i);
      var p := polls[i];
      if p.AdminLimitExceeded? {
        ending := Completed;
        return;
      } else if p.ServerFailure? {
        ending := Failed(p.code);
        return;
      }
      kind := p.kind;
      assert entries + Collect(polls[i..]).entries == (entries + p.entries) + (if kind == SearchResult then [] else Collect(polls[i + 1..]).entries);
      entries := entries + p.entries;
      i := i + 1;
      if kind == SearchResult {
        ending := Completed;
      }
    }
  }
}

=== FILE: results.dfy ===
/** Failure-carrying datatypes shared by the whole model. */
module Results {

  /** An optional value: Python's `None` or a present value. */
  datatype Option<T> = None | Some(value: T)

  /** Pass, or an exception carrying an error of type E. */
  datatype Outcome<E> = Pass | Fail(error: E)
}

=== FILE: streams.dfy ===
/**
 * Lazily produced entry sequences and the consumers that pull them.
 *
 * A Python generator runs its body only when the consumer asks for the next
 * item. The model flattens a generator into the entries it would yield and the
 * way it would end, and describes a consumer by how far it pulls.
 */
module Streams {
  import opened Directory

  /** How a generator's body ends once every entry has been yielded. */
  datatype Ending =
      /** it returns normally (StopIteration for the consumer) */
    | Completed
      /** it raises a directory-protocol error */
    | Failed(code: string)
      /** it keeps polling forever: the outcomes seen never end the search */
    | Stalled

  datatype Stream = Stream(entries: seq<Entry>, ending: Ending)

  /** How far a consumer pulls. */
  datatype Demand =
      /** a `for` loop that runs until the generator stops */
    | Exhaust
      /** a consumer that stops after receiving `k` entries, or earlier at the end */
    | Prefix(k: nat)

  /** Whether the consumer asks for at least one entry, which starts the generator's body. */
  predicate Starts(d: Demand) {
    d.Exhaust? || d.k > 0
  }

  /** Where the consumer is left. */
  datatype Stop =
      /** it stopped pulling; the generator is suspended and never resumes */
    | Suspended
      /** it pulled past the last entry and the generator returned */
    | Finished
      /** the generator raised while the consumer was pulling */
    | Raised(error: Error)
      /** the consumer waits forever */
    | Hung

  datatype Pull = Pull(got: seq<Entry>, stop: Stop)

  /**
   * The entries `d` receives from `s`, and how the pulling ends. The body of
   * the generator after its last `yield` runs only when the consumer asks for
   * one entry more than there are.
   */
  function Consume(s: Stream, d: Demand): (p: Pull)
    ensures p.got <= s.entries
    ensures p.stop == Finished <==> s.ending == Completed && (d.Exhaust? || d.k > |s.entries|)
    ensures p.stop == Suspended <==> d.Prefix? && d.k <= |s.entries|
    ensures p.stop == Suspended ==> |p.got| == d.k
    ensures p.stop != Suspended ==> p.got == s.entries
    ensures p.stop.Raised? ==> s.ending.Failed? && p.stop.error == ServerError(s.ending.code)
    ensures p.stop == Hung ==> s.ending == Stalled
  {
    if d.Prefix? && d.k <= |s.entries| then Pull(s.entries[..d.k], Suspended)
    else match s.ending
      case Completed => Pull(s.entries, Finished)
      case Failed(code) => Pull(s.entries, Raised(ServerError(code)))
      case Stalled => Pull(s.entries, Hung)
  }

  /** Pulling less yields a prefix of what pulling everything yields. */
  lemma PrefixOfExhaust(s: Stream, k: nat)
    ensures Consume(s, Prefix(k)).got <= Consume(s, Exhaust).got
    ensures |Consume(s, Prefix(k)).got| == if k <= |s.entries| then k else |s.entries|
  {
  }
}

=== FILE: text.dfy ===
/**
 * String helpers the program uses through Python's `str` methods:
 * `sep.join(xs)`, `s.split(sep)` and the argument-less `s.split()`.
 * Strings are already-decoded sequences of characters.
 */
module Text {

  /** Python 2's `str.isspace` on one character of a byte string. */
  predicate IsSpace(c: char) {
    c == ' ' || c == '\t' || c == '\n' || c == '\r' || c == '\U{000B}' || c == '\U{000C}'
  }

  /** A non-empty run of non-whitespace characters: what `str.split()` returns. */
  predicate IsWord(w: string) {
    |w| > 0 && forall i :: 0 <= i < |w| ==> !IsSpace(w[i])
  }

  /** Index of the first occurrence of `c` in `s`, or `|s|` when there is none. */
  function IndexOf(c: char, s: string): (i: nat)
    ensures i <= |s|
    ensures forall j :: 0 <= j < i ==> s[j] != c
    ensures i < |s| ==> s[i] == c
  {
    if |s| == 0 || s[0] == c then 0 else 1 + IndexOf(c, s[1..])
  }

  /** `sep.join(xs)`. */
  function Join(sep: char, xs: seq<string>): string
  {
    if |xs| == 0 then ""
    else if |xs| == 1 then xs[0]
    else xs[0] + [sep] + Join(sep, xs[1..])
  }

  lemma JoinTwo(sep: char, a: string, b: string)
    ensures Join(sep, [a, b]) == a + [sep] + b
  {
    assert [a, b][1..] == [b];
  }

  /** `s.split(sep)`: the pieces between occurrences of `sep`; never empty. */
  function SplitOn(sep: char, s: string): (r: seq<string>)
    ensures |r| >= 1
    ensures forall i :: 0 <= i < |r| ==> sep !in r[i]
    decreases |s|
  {
    var i := IndexOf(sep, s);
    if i == |s| then [s] else [s[..i]] + SplitOn(sep, s[i + 1..])
  }

  /** Splitting a join on a separator absent from every piece gives the pieces back. */
  lemma {:induction false} SplitOnJoin(sep: char, xs: seq<string>)
    requires |xs| >= 1
    requires forall i :: 0 <= i < |xs| ==> sep !in xs[i]
    ensures SplitOn(sep, Join(sep, xs)) == xs
    decreases |xs|
  {
    var x := xs[0];
    if |xs| == 1 {
      assert sep !in x;
      assert IndexOf(sep, x) == |x|;
    } else {
      var rest := Join(sep, xs[1..]);
      var s := x + [sep] + rest;
      assert Join(sep, xs) == s;
      assert s[|x|] == sep;
      assert forall j :: 0 <= j < |x| ==> s[j] == x[j];
      assert IndexOf(sep, s) == |x|;
      assert s[..|x|] == x;
      assert s[|x| + 1..] == rest;
      SplitOnJoin(sep, xs[1..]);
    }
  }

  /** Joining two non-empty lists is joining each and putting one separator between. */
  lemma {:induction false} JoinAppend(sep: char, xs: seq<string>, ys: seq<string>)
    requires |xs| >= 1 && |ys| >= 1
    ensures Join(sep, xs + ys) == Join(sep, xs) + [sep] + Join(sep, ys)
    decreases |xs|
  {
    if |xs| == 1 {
      assert (xs + ys)[1..] == ys;
    } else {
      assert (xs + ys)[1..] == xs[1..] + ys;
      JoinAppend(sep, xs[1..], ys);
    }
  }

  /** Length of the leading run of non-whitespace characters of `s`. */
  function WordLength(s: string): (n: nat)
    ensures n <= |s|
    ensures forall j :: 0 <= j < n ==> !IsSpace(s[j])
    ensures n < |s| ==> IsSpace(s[n])
  {
    if |s| == 0 || IsSpace(s[0]) then 0 else 1 + WordLength(s[1..])
  }

  /**
   * `s.split()` with no argument: the maximal runs of non-whitespace characters,
   * in order; leading, trailing and repeated whitespace produce no empty words.
   */
  function Fields(s: string): (r: seq<string>)
    ensures forall i :: 0 <= i < |r| ==> IsWord(r[i])
    ensures forall i, c :: 0 <= i < |r| && c in r[i] ==> c in s
    decreases |s|
  {
    if |s| == 0 then []
    else if IsSpace(s[0]) then
      assert forall c :: c in s[1..] ==> c in s;
      Fields(s[1..])
    else
      var n := WordLength(s);
      assert forall c :: c in s[n..] ==> c in s;
      [s[..n]] + Fields(s[n..])
  }

  /** Whitespace before the first word is dropped. */
  lemma FieldsSkipSpace(c: char, s: string)
    requires IsSpace(c)
    ensures Fields([c] + s) == Fields(s)
  {
    assert ([c] + s)[1..] == s;
  }

  /** A single word splits into itself. */
  lemma FieldsWord(w: string)
    requires IsWord(w)
    ensures Fields(w) == [w]
  {
    assert WordLength(w) == |w|;
    assert w[..|w|] == w && w[|w|..] == [];
  }

  /** A word ended by whitespace is the first field; the rest is split on its own. */
  lemma FieldsWordThenSpace(w: string, c: char, s: string)
    requires IsWord(w) && IsSpace(c)
    ensures Fields(w + [c] + s) == [w] + Fields(s)
  {
    var t := w + [c] + s;
    assert forall j :: 0 <= j < |w| ==> t[j] == w[j];
    assert t[|w|] == c;
    assert WordLength(t) == |w|;
    assert t[..|w|] == w;
    assert t[|w|..] == [c] + s;
    FieldsSkipSpace(c, s);
  }

  /** Two words written with a blank in front, two tabs between and a blank after. */
  lemma FieldsExample(a: string, b: string)
    requires IsWord(a) && IsWord(b)
    ensures Fields([' '] + (a + ['\t'] + (['\t'] + (b + [' '])))) == [a, b]
  {
    var t3 := b + [' '];
    assert t3 == b + [' '] + [];
    FieldsWordThenSpace(b, ' ', []);
    var t2 := ['\t'] + t3;
    FieldsSkipSpace('\t', t3);
    var t1 := a + ['\t'] + t2;
    FieldsWordThenSpace(a, '\t', t2);
    FieldsSkipSpace(' ', t1);
  }

  /** Words joined by single spaces split back into the same words. */
  lemma {:induction false} FieldsJoin(ws: seq<string>)
    requires forall i :: 0 <= i < |ws| ==> IsWord(ws[i])
    ensures Fields(Join(' ', ws)) == ws
    decreases |ws|
  {
    if |ws| == 0 {
    } else {
      var w := ws[0];
      assert IsWord(w);
      if |ws| == 1 {
        assert WordLength(w) == |w|;
        assert w[..|w|] == w && w[|w|..] == [];
      } else {
        var rest := Join(' ', ws[1..]);
        var s := w + [' '] + rest;
        assert Join(' ', ws) == s;
        assert forall j :: 0 <= j < |w| ==> s[j] == w[j];
        assert IsSpace(s[|w|]);
        assert WordLength(s) == |w|;
        assert s[..|w|] == w;
        var tail := s[|w|..];
        assert tail[0] == ' ' && tail[1..] == rest;
        assert Fields(tail) == Fields(rest);
        FieldsJoin(ws[1..]);
      }
    }
  }
}
